=== FILE: README.md ===
# Bookshelf catalogue — a Dafny model

A model of the core of *bookshelf*, a small Rust program that keeps a
catalogue ("shelf") of the books and articles a user owns, lists them in a
terminal UI and on the command line, and lets the user add, remove and open
them. The model covers:

- the entry record (`Entry`, `Author`, `Kind`), its derived equality and its
  `Display` text (`entry.dfy`), and the `Tag` keyword with its derived
  ordering (`tag.dfy`);
- the shelf as a duplicate-free collection: the library's set semantics
  (`add_entry`/`remove_entry` answer whether the set changed) and the
  application's 1-based positional view (`add`, `get_index`, `remove_index`)
  (`shelf.dfy`);
- the library wrappers that load the shelf from the database file, change it
  and write it back, with the file as an opaque value (`storage.dfy`);
- the application's `add_entry`, `remove_entry_index`, `list_entries` and
  `size`, with saving as an opaque step that succeeds or fails (`app.dfy`);
- the list selection state machine `StatefulList` with wrap-around `next` and
  `previous` (`liststate.dfy`);
- the TUI's event and key dispatch, and the selection fix-up after removing
  an entry (`tui.dfy`);
- the entry label `"<index> - <file name>"`, with the decimal rendering of the
  index (`decimal.dfy`) and Unix `Path::file_name` (`paths.dfy`, `format.dfy`);
- the `add` command's kind parsing in both command-line front ends (`cli.dfy`).

The shelf's contents are a sequence without duplicates. Statements taken from
the library's `HashSet` are made about its element set (`Elements`), and
statements about positions are made about the sequence. Panics in the source
(`unwrap` on an error, `todo!()`, `panic!()`, a remainder by zero) are the
`Panicked` case of `Outcome`, with these exceptions: `next`/`previous` and
`format_entry` take the panic-free case as a precondition, and their callers
check it and panic otherwise; the `unwrap` around file creation is folded into
a failed write, and `init` and the external viewer are assumed to succeed, as
listed under "Left out".

Where the sources disagree, the model follows what the code evidently means:

- lib/src/entry.rs declares `path` as a `String`, but the application calls
  `path.file_name()` as on a `PathBuf`. Here the path is a string, and
  `FileName` follows `Path::file_name` on Unix.
- cli/src/entry.rs returns the library's `Result` from a function declared to
  return `()`. `Cli.CliAddEntry` yields that result.
- app/src/cli/entry.rs uses `Kind` without importing it. The model reads it as
  the library's `Kind`.
- The shelf type the application uses (`add`, `get_index`, `remove_index`,
  `save`, `open`) is not defined in lib/src/shelf.rs, whose `Shelf` has only
  `add_entry`/`remove_entry` over a `HashSet`. Its operations are modelled
  from the doc comments in app/src/app.rs and from how the callers use them:
  they pass the 0-based list position plus one, and list entries as `i + 1`.
  So positions are 1-based and removal keeps the remaining order.

## Model

| member | source | states |
|---|---|---|
| Tags.NewTag | lib/src/tag.rs:21-28 | `Tag::new` stores the given keyword unchanged |
| Tags.DefaultTag | lib/src/tag.rs:4-19 | the derived default tag has the empty keyword, the same tag as `Tag::new("")` |
| Tags.CompareKeywords | lib/src/tag.rs:4-19 | string comparison answers Equal exactly when the two keywords are equal |
| Tags.Compare | lib/src/tag.rs:4-19 | the derived tag ordering answers Equal exactly when the tags are equal, so it agrees with the derived `Eq` |
| Tags.CompareLessIsLexLess | lib/src/tag.rs:12-19 | one keyword sorts before another iff they share a prefix after which the first ends or has the smaller character (lexicographic order) |
| Tags.TagOrderIsTotal | lib/src/tag.rs:4-19 | tag `<=` is reflexive, antisymmetric with respect to tag equality, total and transitive; swapping the arguments reverses the comparison |
| Tags.TagOrderIsLexicographic | lib/src/tag.rs:16-19 | tags compare as their keywords do: Less iff the keyword is lexicographically smaller, Equal iff the keywords are equal |
| Entries.EntryEqIsEquality | lib/src/entry.rs:28-37 | the derived field-by-field `PartialEq` of entries holds exactly when all seven fields are equal, authors included, recursively |
| Entries.AuthorEqIsEquality | lib/src/entry.rs:7-11 | the derived `PartialEq` of authors holds exactly when the names and the lists of works are equal |
| Entries.TitleDistinguishesEntries | lib/src/entry.rs:28-37 | two entries that differ only in the title are not equal |
| Entries.KindText | lib/src/entry.rs:19-26 | a kind renders as "a book" or "an article"; the two texts differ, so the text determines the kind |
| Entries.EntryText | lib/src/entry.rs:39-44 | an entry renders as its kind's text, a space, then the title in double quotes; reading the text back gives the kind and the title |
| Entries.EntryTextIdentifiesKindAndTitle | lib/src/entry.rs:39-44 | two entries render to the same text iff they have the same kind and title |
| Shelves.DefaultShelf | lib/src/shelf.rs:13-16 | the default shelf is empty and has no duplicates |
| Shelves.AddEntry | lib/src/shelf.rs:19-21 | adding answers true iff the entry was absent; afterwards the entry set is the old set plus the entry, there are still no duplicates, and a `false` answer means nothing changed |
| Shelves.RemoveEntry | lib/src/shelf.rs:23-25 | removing answers true iff the entry was present; afterwards the entry set is the old set minus the entry, and a `false` answer means nothing changed |
| Shelves.AddThenRemoveOnEmptyShelf | lib/src/shelf.rs:99-123 | on an empty shelf, add and then remove of one entry both answer true and leave zero entries; removing from an empty shelf answers false |
| Shelves.AddEntryIdempotent | lib/src/shelf.rs:19-21 | adding an entry that is already present answers false and leaves the shelf unchanged |
| Shelves.AddThenRemoveRestores | lib/src/shelf.rs:19-25 | adding a new entry and then removing it gives back the original shelf, and the removal answers true |
| Shelves.SizeIsCardinality | lib/src/shelf.rs:14-15 | on a shelf without duplicates, the number of positions equals the number of distinct entries (the set's `len`) |
| Shelves.Add | app/src/app.rs:42-53 | indexed add fails with DuplicateEntry iff the entry is already on the shelf; otherwise the entry becomes the new last position and every earlier position is unchanged |
| Shelves.GetIndex | app/src/tui/mod.rs:184-186 | a lookup succeeds iff the 1-based index lies in 1..size, and yields the entry at 1-based position i; otherwise it fails with NoSuchEntry |
| Shelves.RemoveIndex | app/src/app.rs:58-69 | positional removal succeeds iff the index names an entry; that entry leaves the set, earlier positions keep their entries, later ones move down by one |
| Shelves.RemoveIndexIsRemoveEntry | app/src/app.rs:58-69 | removing position i is the same as removing, by value, the entry found at position i |
| Storage.Load | lib/src/shelf.rs:50-67 | loading a missing file gives the empty default shelf, loading a stored shelf gives that shelf, and loading a damaged file panics |
| Storage.Store | lib/src/shelf.rs:39-48 | a successful write leaves the file holding the shelf; a failed write reports an error and leaves the file damaged |
| Storage.LibAddEntry | lib/src/entry.rs:46-51 | the answer is whether the entry was new on the loaded shelf, and the shelf written back is the loaded one plus the entry; a failed write is reported as an error |
| Storage.LibRemoveEntry | lib/src/entry.rs:53-58 | the answer is whether the entry was on the loaded shelf, and the shelf written back is the loaded one minus the entry; a failed write is reported as an error |
| Storage.LibGetAllEntries | lib/src/entry.rs:60-63 | gives the set of entries on the loaded shelf, which is empty for a missing file |
| Storage.AddThenRemoveThroughDisk | lib/src/entry.rs:91-106 | for an entry the database lacks, add and then remove both answer true and leave the stored entries as they were; on a fresh database that is no entries |
| Storage.RemoveAbsentThroughDisk | lib/src/entry.rs:108-115 | removing an entry the database lacks answers false and leaves the stored entries unchanged |
| Decimal.NatToString | app/src/utils/format.rs:18 | the index is printed as decimal digits, unpadded: at least one digit, and a leading zero only for the number 0 |
| Decimal.ParseNatToString | app/src/utils/format.rs:18 | reading the printed digits back gives the index |
| Paths.FileName | app/src/utils/format.rs:10-15 | the file name, when there is one, is a plain name: not empty, no '/', not "." or ".." |
| Paths.FileNameOfName | app/src/utils/format.rs:10-15 | a plain name is its own file name |
| Paths.FileNameOfJoin | app/src/utils/format.rs:10-15 | the file name of "dir/name" is the final component, name |
| Paths.FileNameIgnoresTrailingSlash | app/src/utils/format.rs:10-15 | a trailing '/' does not change the file name |
| Paths.NoFileNameAfterParent | app/src/utils/format.rs:10-15 | a path ending in ".." has no file name (one case the `expect` rejects) |
| Paths.FileNameIgnoresTrailingDot | app/src/utils/format.rs:10-15 | a trailing "/." does not change the file name |
| Paths.NoFileNameOfDot | app/src/utils/format.rs:10-15 | the path "." has no file name, so the `expect` rejects it |
| Paths.NoFileNameOfSeparators | app/src/utils/format.rs:10-15 | a path of separators only, "" and "/" among them, has no file name, so the `expect` rejects it |
| Format.FormatEntry | app/src/utils/format.rs:3-19 | the label splits back into exactly the given index and the entry's file name around " - ", and its leading digits are exactly the unpadded decimal rendering of the index (a '0' first only for index 0) |
| Format.FormatEntryInjective | app/src/utils/format.rs:18 | two labels are equal iff their indices and their file names are |
| Apps.AddEntry | app/src/app.rs:42-56 | adding fails with DuplicateEntry iff the entry exists, and then nothing is saved; otherwise the entry is appended and saved, and a failed save is reported while the entry stays in memory |
| Apps.Save | app/src/app.rs:55 | a save reports success iff it succeeds; then the file holds the current shelf; a failed save is reported and leaves the shelf in memory and the saved copy as they were |
| Apps.RemoveEntryIndex | app/src/app.rs:58-72 | removing fails with NoSuchEntry iff the index is outside 1..size, and then nothing is saved; otherwise the entry at that position is gone and the shelf is saved |
| Apps.ListEntries | app/src/app.rs:90-97 | one pair per shelf entry, in shelf order; pair i carries i and the entry found at 1-based position i + 1 |
| Apps.AppSize | app/src/app.rs:99-102 | the size is the length of the listing and the number of distinct entries on the shelf |
| Apps.ListEntriesCoversShelf | app/src/app.rs:90-97 | every entry on the shelf appears in the listing, and the listing shows nothing else |
| ListState.EmptyList | app/src/tui/state.rs:26-30 | the default list has no items and no selection |
| ListState.Deselect | app/src/tui/state.rs:33-35 | deselecting clears the selection and keeps the items |
| ListState.Next | app/src/tui/state.rs:37-44 | `next` moves a valid selection one down, and from the last item to the first; with no selection it selects the first item of a non-empty list and nothing on an empty one; the items never change |
| ListState.Previous | app/src/tui/state.rs:46-53 | `previous` moves a valid selection one up, and from the first item to the last; with no selection it selects the first item of a non-empty list and nothing on an empty one; the items never change |
| ListState.First | app/src/tui/state.rs:55-59 | `first` selects item 0 of a non-empty list and changes nothing on an empty one |
| ListState.Last | app/src/tui/state.rs:60-64 | `last` selects the final item of a non-empty list and changes nothing on an empty one |
| ListState.MovesPreserveValidity | app/src/tui/state.rs:33-64 | from a selection that points at an item, every move is safe (no remainder by zero) and the selection again points at an item |
| ListState.NextPreviousInverse | app/src/tui/state.rs:37-53 | on a valid selection, `previous` undoes `next` and `next` undoes `previous` |
| ListState.NextTimesWraps | app/src/tui/state.rs:37-44 | k steps of `next` from position i land on (i + k) mod the list length |
| ListState.FullRoundReturns | app/src/tui/state.rs:37-44 | as many steps of `next` as there are items return to the starting selection |
| Tui.DefaultState | app/src/tui/state.rs:13-24 | the default state is titled "Bookshelf", requests neither exit nor redraw, is not editing, has an empty prompt and an empty list with no selection |
| Tui.EntryLabels | app/src/tui/mod.rs:163-176 | the list shows one label per shelf entry, in shelf order, each the entry's file name |
| Tui.NewTui | app/src/tui/mod.rs:33-48 | a new TUI starts from the default state showing the shelf's file names with no selection, so it starts consistent; it panics iff some entry has no file name |
| Tui.GetEntryList | app/src/tui/mod.rs:162-181 | refreshing shows the shelf's file names, deselects exactly when the shelf is empty, keeps the selection otherwise, and touches nothing else |
| Tui.OpenEntry | app/src/tui/mod.rs:183-192 | with no selection nothing happens; with position i selected, 1-based entry i + 1 exists and the prompt becomes "Opened '<its label>'", and neither the shelf nor the list changes |
| Tui.OpenEntryNeverPanics | app/src/tui/mod.rs:184-190 | on a consistent TUI the selected entry exists and has a file name, so neither the lookup's `unwrap` nor the label's `expect` panics |
| Tui.RemoveEntry | app/src/tui/mod.rs:194-207 | with no selection nothing happens; with position i selected, 1-based entry i + 1 is removed through the application |
| Tui.RemoveEntryFixesSelection | app/src/tui/mod.rs:194-207 | after removing the selected entry, an emptied list has no selection, a removed last item moves the selection to the new last, and otherwise the position is kept; the list stays consistent |
| Tui.RemoveEntryPanicsOnSaveFailure | app/src/tui/mod.rs:198 | when saving after a removal fails, the `unwrap` panics |
| Tui.MatchInputs | app/src/tui/mod.rs:107-160 | in prompt mode the only panic is Enter, and neither the shelf nor the selection changes; only Delete/'d' can change the shelf; the title never changes; in navigation mode Enter/Right/'l' open the selected entry and Delete/'d' remove it (see Tui.NavigationMoves) |
| Tui.PromptModeKeys | app/src/tui/mod.rs:109-127 | in prompt mode a character is appended, Backspace drops the last character and does nothing on an empty prompt, Esc leaves prompt mode, and other keys except Enter only clear the redraw request |
| Tui.TypeThenBackspace | app/src/tui/mod.rs:111-116 | typing a character and then Backspace restores the previous state |
| Tui.NavigationMoves | app/src/tui/mod.rs:129-147 | in navigation mode Up/'k' is `previous`, Down/'j' is `next`, Home/'K' is `first` and End/'J' is `last`, with nothing else changed; Enter/Right/'l' is `open_entry` and Delete/'d' is `remove_entry` |
| Tui.NavigationModeOtherKeys | app/src/tui/mod.rs:148-157 | 'a' enters prompt mode with an empty prompt, Esc/'q' request exit, and an unrecognised key only clears the redraw request |
| Tui.MatchInputsPreservesConsistency | app/src/tui/mod.rs:107-207 | from a consistent TUI and with saves succeeding, every key except Enter in prompt mode returns without panicking, and the list again mirrors the shelf with a valid selection |
| Tui.MatchEvents | app/src/tui/mod.rs:88-105 | every event first requests a redraw; a tick withdraws the request, a key is dispatched with the request set, and a closed channel requests exit |
| Tui.KeyEventsRequestRedraw | app/src/tui/mod.rs:88-105 | a recognised navigation key, delivered as an event to a consistent TUI, leaves a redraw requested and the TUI consistent |
| Cli.ParseKind | cli/src/entry.rs:4-8 | "book" parses to Book and "article" to Article, and every other word is rejected (the `panic!`) |
| Cli.ParseKindWord | app/src/cli/entry.rs:5-9 | each kind's command-line word parses back to that kind |
| Cli.NewEntry | cli/src/entry.rs:10-18 | the new entry has an empty title, the given path unchanged and the parsed kind, with no author, year, tags or DOI |
| Cli.CliAddEntry | cli/src/entry.rs:3-19 | an unknown kind word panics; otherwise the library's add result for the new entry is passed on, and after a successful write the entry is in the stored shelf |
| Cli.AppCliAddEntry | app/src/cli/entry.rs:4-21 | the command returns iff the kind word is known, the database loads and the write succeeds (the `unwrap` panics otherwise); the stored shelf then gains exactly the new entry |

## Left out

- Reading and writing the database file, and bincode (de)serialisation, in `Shelf::init`, `write_to_file` and `read_from_file`. The file is an opaque `Disk` value. Whether a write succeeds is a parameter. `init` is assumed to succeed, and `File::create` failing (an `unwrap` panic) is folded into a failed write.
- Apps.Save: a failed save is assumed to leave the database file as it was, an atomic save. `Shelf::save` is not defined in lib/src/shelf.rs, and app/src/app.rs only promises that an error is returned. The library writer `write_to_file` truncates the file before writing, which `Storage.Store` models as leaving it damaged; the application's save may behave that way too.
- Storage.Store: a failed write is modelled as always leaving the file damaged. A write that fails part way could in fact leave bytes that still deserialise.
- Configuration discovery (app/src/config.rs, lib/src/config.rs): it depends on OS directories, environment variables, TOML and tilde expansion. The database location is implicit.
- Terminal setup and teardown, drawing, the redraw-on-resize check in `run`, and the tokio event loop. These are UI and concurrency. Events arrive as a parameter, and a closed channel is `None`.
- Launching an external viewer (`App::open_entry`, via the `open` crate). `Tui.OpenEntry` treats it as an effect that succeeds and changes nothing.
- `App::new`: it reads the configuration, opens the shelf file and builds the clap commands, which are configuration and I/O.
- `App::start`, `run_command` and `run_tui`: `start` and `run_command` do clap matching and dispatch; `run_tui` is a terminal loop with `todo!()` arms.
- Clap definitions and the println-based command handlers (cli/src/main.rs, app/src/cli/mod.rs, app/src/cli/clap.rs), and the printing loop `get_all_entries` in app/src/cli/entry.rs.
- Enter in prompt mode is `todo!()`. It is modelled only as a panic.
- The bibliography branch of `format_entry` is `todo!()`, and the entry record has no bibliography field. Format.FormatEntry therefore covers only the case with no bibliography file.
- Format.FormatEntry: the `expect` on the file name is a precondition, not a panic.
- ListState.Next and ListState.Previous: the panic on an empty list with a selection is a precondition (`CanStep`). Their `usize` overflow at the maximum index is not modelled, since positions are unbounded naturals.
- `Hash` on entries and tags: only the equality that hashing must agree with is modelled.
- The library `Shelf` is a `HashSet`, and its iteration order is unspecified. The model gives it the insertion order of the sequence. Set-level contracts do not depend on that order.
- Entries have no canonical-path identity, tag index or bibliography check; equality is the derived one over all seven fields.
- The test fixture utils/src/test.rs and the module glue in app/src/main.rs and lib/src/lib.rs.

=== FILE: app.dfy ===
/** app/src/app.rs: the application's shelf operations. The shelf in memory
    is changed first and then saved; the save is an opaque step whose
    success is a parameter, and `saved` is the shelf the database file holds
    after the last successful save. */
module Apps {
  import opened Common
  import opened Entries
  import opened Shelves

  datatype App = App(shelf: Shelf, saved: Shelf)

  datatype AppError = ShelfFailed(cause: ShelfError) | SaveFailed

  predicate AppValid(app: App) {
    Valid(app.shelf)
  }

  /** `App::add_entry`. A duplicate is reported before anything is saved;
      otherwise the entry is on the shelf and the shelf is saved. */
  function AddEntry(app: App, e: Entry, saveOk: bool): (r: (App, Result<(), AppError>))
    requires AppValid(app)
    ensures AppValid(r.0)
    ensures r.1 == Err(ShelfFailed(DuplicateEntry)) <==> e in Elements(app.shelf)
    ensures e in Elements(app.shelf) ==> r.0 == app
    ensures e !in Elements(app.shelf) ==>
      && r.0.shelf == Shelf(app.shelf.entries + [e])
      && (saveOk ==> r.1 == Ok(()) && r.0.saved == r.0.shelf)
      && (!saveOk ==> r.1 == Err(SaveFailed) && r.0.saved == app.saved)
  {
    match Add(app.shelf, e)
    case Err(err) => (app, Err(ShelfFailed(err)))
    case Ok(sh) => Save(app.(shelf := sh), saveOk)
  }

  /** `Shelf::save`, as seen by the application: on success the file holds
      the current shelf. */
  function Save(app: App, saveOk: bool): (r: (App, Result<(), AppError>))
    ensures r.0.shelf == app.shelf
    ensures r.1.Ok? <==> saveOk
    ensures saveOk ==> r.0.saved == app.shelf
    ensures !saveOk ==> r == (app, Err(SaveFailed))
  {
    if saveOk then (app.(saved := app.shelf), Ok(())) else (app, Err(SaveFailed))
  }

  /** `App::remove_entry_index`. An index that matches no entry is reported
      before anything is saved; otherwise the entry at that 1-based position
      is gone and the shelf is saved. */
  function RemoveEntryIndex(app: App, index: nat, saveOk: bool): (r: (App, Result<(), AppError>))
    requires AppValid(app)
    ensures AppValid(r.0)
    ensures r.1 == Err(ShelfFailed(NoSuchEntry)) <==> !(1 <= index <= Size(app.shelf))
    ensures !(1 <= index <= Size(app.shelf)) ==> r.0 == app
    ensures 1 <= index <= Size(app.shelf) ==>
      && r.0.shelf == RemoveIndex(app.shelf, index).value
      && app.shelf.entries[index - 1] !in Elements(r.0.shelf)
      && (saveOk ==> r.1 == Ok(()) && r.0.saved == r.0.shelf)
      && (!saveOk ==> r.1 == Err(SaveFailed) && r.0.saved == app.saved)
  {
    match RemoveIndex(app.shelf, index)
    case Err(err) => (app, Err(ShelfFailed(err)))
    case Ok(sh) => Save(app.(shelf := sh), saveOk)
  }

  /** `App::list_entries`: the entries in shelf order, each with its 0-based
      position. */
  function ListEntries(app: App): (r: seq<(nat, Entry)>)
    ensures |r| == Size(app.shelf)
    ensures forall i :: 0 <= i < |r| ==> r[i].0 == i && GetIndex(app.shelf, i + 1) == Ok(r[i].1)
  {
    seq(|app.shelf.entries|, i requires 0 <= i < |app.shelf.entries| => (i, app.shelf.entries[i]))
  }

  /** `App::size`: the number of entries, which is the length of the list
      and the number of distinct entries on the shelf. */
  function AppSize(app: App): (n: nat)
    requires AppValid(app)
    ensures n == |ListEntries(app)|
    ensures n == |Elements(app.shelf)|
  {
    SizeIsCardinality(app.shelf);
    |app.shelf.entries|
  }

  /** Every entry of the shelf appears in the listing, and the listing
      shows no other entry. */
  lemma ListEntriesCoversShelf(app: App)
    requires AppValid(app)
    ensures forall e :: e in Elements(app.shelf) <==> exists i :: 0 <= i < |ListEntries(app)| && ListEntries(app)[i].1 == e
  {
    var l := ListEntries(app);
    forall e | e in Elements(app.shelf)
      ensures exists i :: 0 <= i < |l| && l[i].1 == e
    {
      var i :| 0 <= i < |app.shelf.entries| && app.shelf.entries[i] == e;
      assert l[i].1 == e;
    }
  }
}

=== FILE: cli.dfy ===
/** The `add` command of the two command-line front ends, cli/src/entry.rs
    and app/src/cli/entry.rs: both turn a kind word and a path into a fresh
    entry and hand it to the library's `add_entry`. */
module Cli {
  import opened Common
  import opened Entries
  import opened Shelves
  import opened Storage

  /** The command-line word for each kind. */
  function KindWord(k: Kind): string {
    match k
    case Book => "book"
    case Article => "article"
  }

  /** The kind match of both `add_entry` functions; `None` is the `panic!()`
      on any other word. */
  function ParseKind(word: string): (r: Option<Kind>)
    ensures r == Some(Book) <==> word == "book"
    ensures r == Some(Article) <==> word == "article"
    ensures r.Some? ==> KindWord(r.value) == word
  {
    if word == "book" then Some(Book)
    else if word == "article" then Some(Article)
    else None
  }

  /** Each kind's word parses back to it. */
  lemma ParseKindWord(k: Kind)
    ensures ParseKind(KindWord(k)) == Some(k)
  {
  }

  /** The entry both front ends build: empty title, the path verbatim, the
      parsed kind, and no author, year, tags or DOI. */
  function NewEntry(kind: Kind, path: string): (e: Entry)
    ensures e.title == "" && e.path == path && e.kind == kind
    ensures e.author == NoAuthors && e.year == None && e.tags == None && e.doi == None
  {
    Entry("", path, kind, NoAuthors, None, None, None)
  }

  /** cli/src/entry.rs `add_entry`: panics on an unknown kind word, and
      otherwise yields the library's answer for the new entry. */
  function CliAddEntry(word: string, path: string, d: Disk, writeOk: bool)
    : (r: Outcome<(Result<bool, IoError>, Disk)>)
    requires DiskValid(d)
    ensures ParseKind(word).None? ==> r.Panicked?
    ensures ParseKind(word).Some? ==>
      r == LibAddEntry(d, NewEntry(ParseKind(word).value, path), writeOk)
    ensures r.Returned? && writeOk ==>
      && r.value.1.Holds?
      && NewEntry(ParseKind(word).value, path) in Elements(r.value.1.shelf)
  {
    match ParseKind(word)
    case None => Panicked
    case Some(kind) => LibAddEntry(d, NewEntry(kind, path), writeOk)
  }

  /** app/src/cli/entry.rs `add_entry`: as above, but the library's result
      is unwrapped, so a failed write panics too; whether the entry was new
      is dropped. */
  function AppCliAddEntry(word: string, path: string, d: Disk, writeOk: bool): (r: Outcome<Disk>)
    requires DiskValid(d)
    ensures r.Returned? <==> ParseKind(word).Some? && !d.Damaged? && writeOk
    ensures r.Returned? ==>
      && r.value.Holds?
      && Elements(r.value.shelf) == Elements(Load(d).value) + {NewEntry(ParseKind(word).value, path)}
  {
    match CliAddEntry(word, path, d, writeOk)
    case Panicked => Panicked
    case Returned((result, d')) => if result.Err? then Panicked else Returned(d')
  }
}

=== FILE: common.dfy ===
/** Small wrapper types shared by every module of the bookshelf model. */
module Common {

  /** Rust's `Option<T>`. */
  datatype Option<+T> = None | Some(value: T)

  /** Rust's `Result<T, E>`. */
  datatype Result<+T, +E> = Ok(value: T) | Err(error: E)

  /** How a Rust call ends: it returns a value, or it panics (an `unwrap` on
      an error, `todo!()`, `panic!()`, a remainder by zero). */
  datatype Outcome<+T> = Returned(value: T) | Panicked

  /** Rust's `u32`, used for the publication year of an entry. */
  newtype U32 = x: int | 0 <= x < 0x1_0000_0000
}

=== FILE: decimal.dfy ===
/** Decimal rendering of a `usize`, as `format!("{}", n)` prints it:
    unpadded, no sign, no leading zero. */
module Decimal {

  predicate IsDigit(c: char) {
    '0' <= c <= '9'
  }

  predicate AllDigits(s: string) {
    forall i :: 0 <= i < |s| ==> IsDigit(s[i])
  }

  function DigitChar(d: nat): (c: char)
    requires d < 10
    ensures IsDigit(c)
  {
    "0123456789"[d]
  }

  function DigitValue(c: char): (d: nat)
    requires IsDigit(c)
    ensures d < 10
  {
    (c as int - '0' as int) as nat
  }

  function NatToString(n: nat): (s: string)
    ensures |s| >= 1 && AllDigits(s)
    ensures s[0] == '0' <==> n == 0
    ensures n == 0 ==> s == "0"
  {
    if n < 10 then [DigitChar(n)]
    else NatToString(n / 10) + [DigitChar(n % 10)]
  }

  function ParseDigits(s: string): nat
    requires AllDigits(s)
  {
    if |s| == 0 then 0
    else ParseDigits(s[..|s| - 1]) * 10 + DigitValue(s[|s| - 1])
  }

  /** Reading the rendering back gives the number. */
  lemma {:induction false} ParseNatToString(n: nat)
    ensures ParseDigits(NatToString(n)) == n
  {
    var s := NatToString(n);
    if n >= 10 {
      ParseNatToString(n / 10);
      assert s[..|s| - 1] == NatToString(n / 10);
    }
  }

  /** Number of leading digit characters of `s`. */
  function DigitPrefixLength(s: string): (k: nat)
    ensures k <= |s|
    ensures AllDigits(s[..k])
    ensures k < |s| ==> !IsDigit(s[k])
  {
    if |s| == 0 || !IsDigit(s[0]) then 0
    else
      var k := 1 + DigitPrefixLength(s[1..]);
      assert s[..k] == [s[0]] + s[1..][..k - 1];
      k
  }

  lemma {:induction false} DigitPrefixOfDigitsThenOther(d: string, rest: string)
    requires AllDigits(d)
    requires |rest| > 0 && !IsDigit(rest[0])
    ensures DigitPrefixLength(d + rest) == |d|
  {
    if |d| > 0 {
      assert (d + rest)[1..] == d[1..] + rest;
      DigitPrefixOfDigitsThenOther(d[1..], rest);
    }
  }
}

=== FILE: entry.dfy ===
/** lib/src/entry.rs: the entry record, its author, its kind, and their
    derived equality and `Display` renderings. */
module Entries {
  import opened Common

  datatype Kind = Book | Article

  /** An author and the works attributed to them; `Author` and `Entry` are
      mutually recursive, so derived equality recurses through both. */
  datatype Author = Author(name: string, works: seq<Entry>)

  /** The `author` field, Rust's `Option<Vec<Author>>`. It is its own
      datatype rather than `Option<seq<Author>>` so that recursion through
      it is seen to terminate. */
  datatype Authors = NoAuthors | SomeAuthors(list: seq<Author>)

  datatype Entry = Entry(
    title: string,
    path: string,
    kind: Kind,
    author: Authors,
    year: Option<U32>,
    tags: Option<seq<string>>,
    doi: Option<string>)

  // ---------------------------------------------------------------------
  // Derived `PartialEq`, written out field by field as `#[derive]` expands it

  predicate EntryEq(a: Entry, b: Entry)
    decreases a
  {
    && a.title == b.title
    && a.path == b.path
    && a.kind == b.kind
    && AuthorsEq(a.author, b.author)
    && a.year == b.year
    && a.tags == b.tags
    && a.doi == b.doi
  }

  /** `Option<Vec<Author>>` equality. */
  predicate AuthorsEq(x: Authors, y: Authors)
    decreases x
  {
    match x
    case NoAuthors => y.NoAuthors?
    case SomeAuthors(xs) => y.SomeAuthors? && AuthorListEq(xs, y.list)
  }

  /** `Vec<Author>` equality: same length, equal element by element. */
  predicate AuthorListEq(xs: seq<Author>, ys: seq<Author>)
    decreases xs
  {
    |xs| == |ys| &&
    (|xs| == 0 || (AuthorEq(xs[0], ys[0]) && AuthorListEq(xs[1..], ys[1..])))
  }

  predicate AuthorEq(a: Author, b: Author)
    decreases a
  {
    a.name == b.name && EntryListEq(a.works, b.works)
  }

  /** `Vec<Entry>` equality: same length, equal element by element. */
  predicate EntryListEq(xs: seq<Entry>, ys: seq<Entry>)
    decreases xs
  {
    |xs| == |ys| &&
    (|xs| == 0 || (EntryEq(xs[0], ys[0]) && EntryListEq(xs[1..], ys[1..])))
  }

  /** The derived comparison is exactly structural equality: two entries
      are equal iff all seven fields are, authors compared recursively. */
  lemma {:induction false} EntryEqIsEquality(a: Entry, b: Entry)
    ensures EntryEq(a, b) <==> a == b
    decreases a
  {
    AuthorsEqIsEquality(a.author, b.author);
  }

  lemma {:induction false} AuthorsEqIsEquality(x: Authors, y: Authors)
    ensures AuthorsEq(x, y) <==> x == y
    decreases x
  {
    match x
    case NoAuthors =>
    case SomeAuthors(xs) =>
      if y.SomeAuthors? {
        AuthorListEqIsEquality(xs, y.list);
      }
  }

  lemma {:induction false} AuthorListEqIsEquality(xs: seq<Author>, ys: seq<Author>)
    ensures AuthorListEq(xs, ys) <==> xs == ys
    decreases xs
  {
    if |xs| == |ys| && |xs| != 0 {
      AuthorEqIsEquality(xs[0], ys[0]);
      AuthorListEqIsEquality(xs[1..], ys[1..]);
      assert xs == [xs[0]] + xs[1..];
      assert ys == [ys[0]] + ys[1..];
    }
  }

  lemma {:induction false} AuthorEqIsEquality(a: Author, b: Author)
    ensures AuthorEq(a, b) <==> a == b
    decreases a
  {
    EntryListEqIsEquality(a.works, b.works);
  }

  lemma {:induction false} EntryListEqIsEquality(xs: seq<Entry>, ys: seq<Entry>)
    ensures EntryListEq(xs, ys) <==> xs == ys
    decreases xs
  {
    if |xs| == |ys| && |xs| != 0 {
      EntryEqIsEquality(xs[0], ys[0]);
      EntryListEqIsEquality(xs[1..], ys[1..]);
      assert xs == [xs[0]] + xs[1..];
      assert ys == [ys[0]] + ys[1..];
    }
  }

  /** Entries that differ in their title alone are distinct. */
  lemma TitleDistinguishesEntries(a: Entry, t: string)
    requires t != a.title
    ensures !EntryEq(a, a.(title := t))
  {
    EntryEqIsEquality(a, a.(title := t));
  }

  // ---------------------------------------------------------------------
  // `Display`

  /** `Display for Kind`. */
  function KindText(k: Kind): (s: string)
    ensures k == Book ==> s == "a book"
    ensures k == Article ==> s == "an article"
  {
    match k
    case Book => "a book"
    case Article => "an article"
  }

  /** `Display for Entry`: the kind's text, a space, the quoted title. */
  function EntryText(e: Entry): (s: string)
    ensures ParseEntryText(s) == Some((e.kind, e.title))
  {
    var prefix := KindText(e.kind) + " \"";
    var s := prefix + e.title + "\"";
    assert s[..|prefix|] == prefix;
    assert s[|prefix| .. |s| - 1] == e.title;
    assert e.kind == Article ==> s[..|KindText(Book) + " \""|][1] == 'n';
    s
  }

  /** Reads a rendering back: the inverse of `EntryText` on kind and title. */
  function ParseEntryText(s: string): Option<(Kind, string)> {
    var book := KindText(Book) + " \"";
    var article := KindText(Article) + " \"";
    if |s| > |book| && s[..|book|] == book && s[|s| - 1] == '"' then
      Some((Book, s[|book| .. |s| - 1]))
    else if |s| > |article| && s[..|article|] == article && s[|s| - 1] == '"' then
      Some((Article, s[|article| .. |s| - 1]))
    else
      None
  }

  /** Two entries render alike exactly when they agree on kind and title. */
  lemma EntryTextIdentifiesKindAndTitle(a: Entry, b: Entry)
    ensures EntryText(a) == EntryText(b) <==> a.kind == b.kind && a.title == b.title
  {
    if EntryText(a) == EntryText(b) {
      assert ParseEntryText(EntryText(a)) == ParseEntryText(EntryText(b));
    }
  }
}

=== FILE: format.dfy ===
/** app/src/utils/format.rs: the label an entry is listed under,
    `"<index> - <file name>"`. */
module Format {
  import opened Common
  import opened Entries
  import opened Decimal
  import opened Paths

  /** `format_entry` for an entry without a bibliography file: the index,
      unpadded, then " - ", then the final component of the entry's path.
      The `expect` on the file name is the precondition. */
  function FormatEntry(index: nat, e: Entry): (text: string)
    requires FileName(e.path).Some?
    ensures ParseLabel(text) == Some((index, FileName(e.path).value))
    ensures text[0] == '0' <==> index == 0
    ensures DigitPrefixLength(text) == |NatToString(index)|
  {
    var digits := NatToString(index);
    var text := digits + " - " + FileName(e.path).value;
    DigitPrefixOfDigitsThenOther(digits, " - " + FileName(e.path).value);
    assert text == digits + (" - " + FileName(e.path).value);
    assert text[..|digits|] == digits;
    assert text[|digits|..|digits| + 3] == " - ";
    ParseNatToString(index);
    text
  }

  /** Splits a text into its index and name: the leading digits, then
      " - ", then the rest. */
  function ParseLabel(s: string): Option<(nat, string)> {
    var k := DigitPrefixLength(s);
    if 0 < k && k + 3 <= |s| && s[k..k + 3] == " - " then
      Some((ParseDigits(s[..k]), s[k + 3..]))
    else
      None
  }

  /** Different positions, or different file names, give different labels. */
  lemma FormatEntryInjective(i: nat, a: Entry, j: nat, b: Entry)
    requires FileName(a.path).Some? && FileName(b.path).Some?
    ensures FormatEntry(i, a) == FormatEntry(j, b) <==>
      i == j && FileName(a.path) == FileName(b.path)
  {
  }
}

=== FILE: liststate.dfy ===
/** app/src/tui/state.rs: `StatefulList`, a list of items with an optional
    selected position, moved with wrap-around. */
module ListState {
  import opened Common

  datatype StatefulList<T> = StatefulList(selected: Option<nat>, items: seq<T>)

  /** The list a `Default` gives: nothing selected, no items. */
  function EmptyList<T>(): (l: StatefulList<T>)
    ensures l.selected.None? && |l.items| == 0
  {
    StatefulList(None, [])
  }

  /** The selection, if any, points at an item. */
  predicate SelectionValid<T>(l: StatefulList<T>) {
    l.selected.Some? ==> l.selected.value < |l.items|
  }

  /** `next` and `previous` take a remainder by the length when something is
      selected, which panics on an empty list. */
  predicate CanStep<T>(l: StatefulList<T>) {
    l.selected.Some? ==> |l.items| > 0
  }

  function Deselect<T>(l: StatefulList<T>): (r: StatefulList<T>)
    ensures r.selected.None? && r.items == l.items
  {
    l.(selected := None)
  }

  /** `next`: one down, from the last item back to the first; with nothing
      selected, the first item if there is one. */
  function Next<T>(l: StatefulList<T>): (r: StatefulList<T>)
    requires CanStep(l)
    ensures r.items == l.items
    ensures SelectionValid(r)
    ensures l.selected.None? ==> (r.selected.Some? <==> |l.items| > 0)
    ensures l.selected.None? && |l.items| > 0 ==> r.selected == Some(0)
    ensures SelectionValid(l) && l.selected.Some? ==>
      r.selected == Some(if l.selected.value == |l.items| - 1 then 0 else l.selected.value + 1)
  {
    match l.selected
    case Some(i) => l.(selected := Some((i + 1) % |l.items|))
    case None => if |l.items| == 0 then l.(selected := None) else l.(selected := Some(0))
  }

  /** `previous`: one up, from the first item round to the last; with
      nothing selected, the first item if there is one. */
  function Previous<T>(l: StatefulList<T>): (r: StatefulList<T>)
    requires CanStep(l)
    ensures r.items == l.items
    ensures SelectionValid(r)
    ensures l.selected.None? ==> (r.selected.Some? <==> |l.items| > 0)
    ensures l.selected.None? && |l.items| > 0 ==> r.selected == Some(0)
    ensures SelectionValid(l) && l.selected.Some? ==>
      r.selected == Some(if l.selected.value == 0 then |l.items| - 1 else l.selected.value - 1)
  {
    match l.selected
    case Some(i) => l.(selected := Some((i + |l.items| - 1) % |l.items|))
    case None => if |l.items| == 0 then l.(selected := None) else l.(selected := Some(0))
  }

  /** `first`: the first item, or no change on an empty list. */
  function First<T>(l: StatefulList<T>): (r: StatefulList<T>)
    ensures r.items == l.items
    ensures |l.items| > 0 ==> r.selected == Some(0)
    ensures |l.items| == 0 ==> r == l
  {
    if |l.items| > 0 then l.(selected := Some(0)) else l
  }

  /** `last`: the last item, or no change on an empty list. */
  function Last<T>(l: StatefulList<T>): (r: StatefulList<T>)
    ensures r.items == l.items
    ensures |l.items| > 0 ==> r.selected == Some(|l.items| - 1)
    ensures |l.items| == 0 ==> r == l
  {
    if |l.items| > 0 then l.(selected := Some(|l.items| - 1)) else l
  }

  /** Every move keeps a valid selection valid and leaves the items alone. */
  lemma MovesPreserveValidity<T>(l: StatefulList<T>)
    requires SelectionValid(l)
    ensures CanStep(l)
    ensures SelectionValid(Next(l)) && SelectionValid(Previous(l))
    ensures SelectionValid(First(l)) && SelectionValid(Last(l)) && SelectionValid(Deselect(l))
  {
  }

  /** `previous` undoes `next`, and `next` undoes `previous`, on a valid
      selection. */
  lemma NextPreviousInverse<T>(l: StatefulList<T>)
    requires SelectionValid(l) && l.selected.Some?
    ensures Previous(Next(l)) == l
    ensures Next(Previous(l)) == l
  {
  }

  /** `k` steps of `next`. */
  function NextTimes<T>(l: StatefulList<T>, k: nat): (r: StatefulList<T>)
    requires SelectionValid(l)
    ensures SelectionValid(r) && r.items == l.items
  {
    if k == 0 then l else Next(NextTimes(l, k - 1))
  }

  /** From a selected item, `k` steps of `next` land `k` places further on,
      modulo the length; so a full round of `|items|` steps comes back. */
  lemma {:induction false} NextTimesWraps<T>(l: StatefulList<T>, k: nat)
    requires SelectionValid(l) && l.selected.Some?
    ensures NextTimes(l, k).selected == Some((l.selected.value + k) % |l.items|)
  {
    if k > 0 {
      NextTimesWraps(l, k - 1);
      var n := |l.items|;
      var i := l.selected.value;
      assert (((i + k - 1) % n) + 1) % n == (i + k) % n by {
        ModSuccessor(i + k - 1, n);
      }
    }
  }

  lemma ModSuccessor(a: nat, n: nat)
    requires n > 0
    ensures ((a % n) + 1) % n == (a + 1) % n
  {
    var q, r := a / n, a % n;
    if r + 1 < n {
      ModUnique(r + 1, n, 0, r + 1);
      ModUnique(a + 1, n, q, r + 1);
    } else {
      ModUnique(r + 1, n, 1, 0);
      ModUnique(a + 1, n, q + 1, 0);
    }
  }

  /** Euclidean division has a unique remainder. */
  lemma ModUnique(a: int, n: int, q: int, r: int)
    requires n > 0 && 0 <= r < n && a == q * n + r
    ensures a % n == r
  {
    var q', r' := a / n, a % n;
    assert (q - q') * n == r' - r;
    if q > q' {
      MulAtLeast(q - q', n);
    } else if q < q' {
      MulAtLeast(q' - q, n);
    }
  }

  lemma MulAtLeast(d: int, n: int)
    requires d >= 1 && n > 0
    ensures d * n >= n
  {
  }

  lemma FullRoundReturns<T>(l: StatefulList<T>)
    requires SelectionValid(l) && l.selected.Some?
    ensures NextTimes(l, |l.items|) == l
  {
    var n, i := |l.items|, l.selected.value;
    var m := NextTimes(l, n);
    NextTimesWraps(l, n);
    ModFullRound(i, n);
    assert m.selected == l.selected && m.items == l.items;
  }

  lemma ModFullRound(i: nat, n: nat)
    requires i < n
    ensures (i + n) % n == i
  {
    ModUnique(i + n, n, 1, i);
  }
}

=== FILE: paths.dfy ===
/** `Path::file_name` on a Unix path held as a string: the final component,
    after dropping empty and `.` pieces (repeated or trailing `/`, interior
    `.`), or nothing when that component is `..` or there is none. */
module Paths {
  import opened Common

  /** Index of the last `/` in `p`, or -1. */
  function LastSlash(p: string): (i: int)
    ensures -1 <= i < |p|
    ensures i >= 0 ==> p[i] == '/'
    ensures forall j :: i < j < |p| ==> p[j] != '/'
  {
    if |p| == 0 then -1
    else if p[|p| - 1] == '/' then |p| - 1
    else LastSlash(p[..|p| - 1])
  }

  /** A plain name: non-empty, no separator, and not `.` or `..`. */
  predicate IsPlainName(n: string) {
    n != "" && n != "." && n != ".." && '/' !in n
  }

  /** The last piece of `p` that is neither empty nor `.`. */
  function LastComponent(p: string): (r: Option<string>)
    ensures r.Some? ==> r.value != "" && r.value != "." && '/' !in r.value
    decreases |p|
  {
    var i := LastSlash(p);
    var piece := p[i + 1..];
    if piece != "" && piece != "." then Some(piece)
    else if i < 0 then None
    else LastComponent(p[..i])
  }

  function FileName(p: string): (r: Option<string>)
    ensures r.Some? ==> IsPlainName(r.value)
  {
    match LastComponent(p)
    case Some(n) => if n == ".." then None else Some(n)
    case None => None
  }

  /** A plain name is its own file name. */
  lemma FileNameOfName(n: string)
    requires IsPlainName(n)
    ensures FileName(n) == Some(n)
  {
    assert LastSlash(n) == -1;
  }

  /** Joining a directory and a plain name yields that name back. */
  lemma FileNameOfJoin(dir: string, n: string)
    requires IsPlainName(n)
    ensures FileName(dir + "/" + n) == Some(n)
  {
    var p := dir + "/" + n;
    assert p[|dir|] == '/';
    assert LastSlash(p) == |dir|;
    assert p[|dir| + 1..] == n;
  }

  /** Trailing separators do not change the file name. */
  lemma FileNameIgnoresTrailingSlash(p: string)
    ensures FileName(p + "/") == FileName(p)
  {
    var q := p + "/";
    assert LastSlash(q) == |p|;
    assert q[..|p|] == p;
  }

  /** A trailing `/.` does not change the file name. */
  lemma FileNameIgnoresTrailingDot(p: string)
    ensures FileName(p + "/.") == FileName(p)
  {
    var q := p + "/.";
    assert LastSlash(q) == |p|;
    assert q[|p| + 1..] == ".";
    assert q[..|p|] == p;
  }

  /** The current directory `.` has no file name. */
  lemma NoFileNameOfDot()
    ensures FileName(".") == None
  {
    assert LastSlash(".") == -1;
  }

  /** A path made only of separators, the empty path and the root `/`
      among them, has no file name. */
  lemma {:induction false} NoFileNameOfSeparators(p: string)
    requires forall j :: 0 <= j < |p| ==> p[j] == '/'
    ensures FileName(p) == None
    decreases |p|
  {
    if |p| > 0 {
      var q := p[..|p| - 1];
      NoFileNameOfSeparators(q);
      assert LastSlash(p) == |p| - 1;
      assert p[|p|..] == "";
      assert p[..|p| - 1] == q;
    }
  }

  /** A path ending in `..` has no file name. */
  lemma NoFileNameAfterParent(dir: string)
    ensures FileName(dir + "/..") == None
  {
    var p := dir + "/..";
    assert p[|dir|] == '/' && p[|dir| + 1] == '.' && p[|dir| + 2] == '.';
    assert LastSlash(p) == |dir|;
    assert p[|dir| + 1..] == "..";
  }
}

=== FILE: shelf.dfy ===
/** lib/src/shelf.rs and the indexed shelf operations app/src/app.rs relies
    on. The shelf's contents are a duplicate-free sequence: its element set
    is the library's `HashSet<Entry>`, and its order is the positional view
    the application addresses with 1-based indices. */
module Shelves {
  import opened Common
  import opened Entries

  datatype Shelf = Shelf(entries: seq<Entry>)

  /** Errors of the indexed operations (`add`, `get_index`, `remove_index`). */
  datatype ShelfError = DuplicateEntry | NoSuchEntry

  predicate NoDuplicates(s: seq<Entry>) {
    forall i, j :: 0 <= i < j < |s| ==> s[i] != s[j]
  }

  /** A shelf, like the set it stands for, never holds two equal entries. */
  predicate Valid(sh: Shelf) {
    NoDuplicates(sh.entries)
  }

  /** The set of entries on the shelf, the `HashSet` view. */
  function Elements(sh: Shelf): set<Entry> {
    set e | e in sh.entries
  }

  /** The derived `Default`: an empty shelf. */
  function DefaultShelf(): (sh: Shelf)
    ensures Valid(sh)
    ensures Elements(sh) == {}
    ensures |sh.entries| == 0
  {
    Shelf([])
  }

  /** Position of `e` in `s`, or -1 when it is absent. */
  function IndexOf(s: seq<Entry>, e: Entry): (i: int)
    ensures -1 <= i < |s|
    ensures i >= 0 ==> s[i] == e && e !in s[..i]
    ensures i < 0 ==> e !in s
  {
    if |s| == 0 then -1
    else if s[0] == e then 0
    else
      var j := IndexOf(s[1..], e);
      assert j >= 0 ==> s[..j + 1] == [s[0]] + s[1..][..j];
      if j < 0 then -1 else j + 1
  }

  /** Deletes position `k`, keeping the relative order of everything else. */
  function RemoveAt(s: seq<Entry>, k: nat): (r: seq<Entry>)
    requires k < |s|
    ensures |r| == |s| - 1
    ensures forall j :: 0 <= j < k ==> r[j] == s[j]
    ensures forall j :: k <= j < |r| ==> r[j] == s[j + 1]
  {
    s[..k] + s[k + 1..]
  }

  lemma RemoveAtKeepsOthers(s: seq<Entry>, k: nat)
    requires k < |s|
    requires NoDuplicates(s)
    ensures NoDuplicates(RemoveAt(s, k))
    ensures (set e | e in RemoveAt(s, k)) == (set e | e in s) - {s[k]}
  {
    var r := RemoveAt(s, k);
    forall e | e in s && e != s[k]
      ensures e in r
    {
      var i :| 0 <= i < |s| && s[i] == e;
      if i < k { assert r[i] == e; } else { assert r[i - 1] == e; }
    }
  }

  lemma RemoveFound(sh: Shelf, k: nat)
    requires Valid(sh) && k < |sh.entries|
    ensures Valid(Shelf(RemoveAt(sh.entries, k)))
    ensures Elements(Shelf(RemoveAt(sh.entries, k))) == Elements(sh) - {sh.entries[k]}
  {
    RemoveAtKeepsOthers(sh.entries, k);
  }

  /** A duplicate-free sequence has as many distinct elements as positions,
      so the shelf's length is the `HashSet`'s `len()`. */
  lemma {:induction false} DistinctCount(s: seq<Entry>)
    requires NoDuplicates(s)
    ensures |set e | e in s| == |s|
  {
    if |s| > 0 {
      var t := s[..|s| - 1];
      DistinctCount(t);
      assert (set e | e in s) == (set e | e in t) + {s[|s| - 1]};
      assert s[|s| - 1] !in t;
    }
  }

  lemma SizeIsCardinality(sh: Shelf)
    requires Valid(sh)
    ensures |Elements(sh)| == |sh.entries|
  {
    DistinctCount(sh.entries);
  }

  // ---------------------------------------------------------------------
  // Set semantics of lib/src/shelf.rs

  /** `Shelf::add_entry` (`HashSet::insert`): true exactly when the entry was
      new; afterwards it is on the shelf and nothing else changed. */
  function AddEntry(sh: Shelf, e: Entry): (r: (Shelf, bool))
    requires Valid(sh)
    ensures Valid(r.0)
    ensures r.1 <==> e !in Elements(sh)
    ensures Elements(r.0) == Elements(sh) + {e}
    ensures !r.1 ==> r.0 == sh
  {
    if e in sh.entries then (sh, false)
    else (Shelf(sh.entries + [e]), true)
  }

  /** `Shelf::remove_entry` (`HashSet::remove`): true exactly when the entry
      was present; afterwards it is absent and nothing else changed. */
  function RemoveEntry(sh: Shelf, e: Entry): (r: (Shelf, bool))
    requires Valid(sh)
    ensures Valid(r.0)
    ensures r.1 <==> e in Elements(sh)
    ensures Elements(r.0) == Elements(sh) - {e}
    ensures !r.1 ==> r.0 == sh
  {
    var k := IndexOf(sh.entries, e);
    if k < 0 then (sh, false)
    else
      RemoveFound(sh, k);
      (Shelf(RemoveAt(sh.entries, k)), true)
  }

  /** The unit tests `add_and_remove_entry` and `remove_unexistent_entry`. */
  lemma AddThenRemoveOnEmptyShelf(e: Entry)
    ensures AddEntry(DefaultShelf(), e).1
    ensures RemoveEntry(AddEntry(DefaultShelf(), e).0, e).1
    ensures |RemoveEntry(AddEntry(DefaultShelf(), e).0, e).0.entries| == 0
    ensures !RemoveEntry(DefaultShelf(), e).1
  {
    var added := AddEntry(DefaultShelf(), e).0;
    var removed := RemoveEntry(added, e).0;
    SizeIsCardinality(removed);
  }

  /** Adding twice is adding once. */
  lemma AddEntryIdempotent(sh: Shelf, e: Entry)
    requires Valid(sh)
    ensures !AddEntry(AddEntry(sh, e).0, e).1
    ensures AddEntry(AddEntry(sh, e).0, e).0 == AddEntry(sh, e).0
  {
  }

  /** Adding a new entry and removing it again restores the element set. */
  lemma AddThenRemoveRestores(sh: Shelf, e: Entry)
    requires Valid(sh) && e !in Elements(sh)
    ensures RemoveEntry(AddEntry(sh, e).0, e) == (sh, true)
  {
    var s := sh.entries + [e];
    assert IndexOf(s, e) == |sh.entries| by {
      assert s[..|sh.entries|] == sh.entries;
    }
    assert RemoveAt(s, |sh.entries|) == sh.entries;
  }

  // ---------------------------------------------------------------------
  // Indexed operations used by app/src/app.rs (1-based positions)

  /** `Shelf::add`: fails with `DuplicateEntry` when the entry is already on
      the shelf, otherwise appends it as the last position. */
  function Add(sh: Shelf, e: Entry): (r: Result<Shelf, ShelfError>)
    requires Valid(sh)
    ensures r.Err? <==> e in Elements(sh)
    ensures r.Err? ==> r.error == DuplicateEntry
    ensures r.Ok? ==> Valid(r.value) && Elements(r.value) == Elements(sh) + {e}
    ensures r.Ok? ==> Size(r.value) == Size(sh) + 1 && GetIndex(r.value, Size(r.value)) == Ok(e)
    ensures r.Ok? ==> forall i :: 1 <= i <= Size(sh) ==> GetIndex(r.value, i) == GetIndex(sh, i)
  {
    if e in sh.entries then Err(DuplicateEntry)
    else Ok(Shelf(sh.entries + [e]))
  }

  function Size(sh: Shelf): nat {
    |sh.entries|
  }

  /** `Shelf::get_index`: the entry at 1-based position `i`, or
      `NoSuchEntry` when `i` is 0 or past the end. */
  function GetIndex(sh: Shelf, i: nat): (r: Result<Entry, ShelfError>)
    ensures r.Ok? <==> 1 <= i <= Size(sh)
    ensures r.Ok? ==> r.value == sh.entries[i - 1] && r.value in Elements(sh)
    ensures r.Err? ==> r.error == NoSuchEntry
  {
    if 1 <= i <= |sh.entries| then Ok(sh.entries[i - 1]) else Err(NoSuchEntry)
  }

  /** `Shelf::remove_index`: deletes the entry at 1-based position `i`;
      earlier positions stay put and later ones move down by one. */
  function RemoveIndex(sh: Shelf, i: nat): (r: Result<Shelf, ShelfError>)
    requires Valid(sh)
    ensures r.Ok? <==> GetIndex(sh, i).Ok?
    ensures r.Err? ==> r.error == NoSuchEntry
    ensures r.Ok? ==> Valid(r.value) && Size(r.value) == Size(sh) - 1
    ensures r.Ok? ==> Elements(r.value) == Elements(sh) - {GetIndex(sh, i).value}
    ensures r.Ok? ==> forall j :: 1 <= j < i ==> GetIndex(r.value, j) == GetIndex(sh, j)
    ensures r.Ok? ==> forall j :: i <= j ==> GetIndex(r.value, j) == GetIndex(sh, j + 1)
  {
    if 1 <= i <= |sh.entries| then
      RemoveFound(sh, i - 1);
      Ok(Shelf(RemoveAt(sh.entries, i - 1)))
    else
      Err(NoSuchEntry)
  }

  /** Positional removal is set removal of the entry found at that position. */
  lemma RemoveIndexIsRemoveEntry(sh: Shelf, i: nat)
    requires Valid(sh) && 1 <= i <= Size(sh)
    ensures RemoveIndex(sh, i) == Ok(RemoveEntry(sh, sh.entries[i - 1]).0)
  {
    var e := sh.entries[i - 1];
    var k := IndexOf(sh.entries, e);
    assert k == i - 1;
  }
}

=== FILE: storage.dfy ===
/** The library-level wrappers of lib/src/entry.rs (`add_entry`,
    `remove_entry`, `get_all_entries`): each loads the shelf from the
    database file, works on it, and writes it back. The file itself is
    opaque: it is missing, holds a shelf, or was left damaged by a failed
    write. */
module Storage {
  import opened Common
  import opened Entries
  import opened Shelves

  datatype Disk = Missing | Holds(shelf: Shelf) | Damaged

  datatype IoError = WriteFailed

  /** Whatever a database file holds deserialises to a set, so to a
      duplicate-free shelf. */
  predicate DiskValid(d: Disk) {
    d.Holds? ==> Valid(d.shelf)
  }

  /** `Shelf::read_from_file` followed by `.unwrap()`: a missing file is
      first initialised with the default shelf; a damaged one does not
      deserialise and the `unwrap` panics. */
  function Load(d: Disk): (r: Outcome<Shelf>)
    requires DiskValid(d)
    ensures r.Returned? <==> !d.Damaged?
    ensures r.Returned? ==> Valid(r.value)
    ensures d.Missing? ==> r == Returned(DefaultShelf())
    ensures d.Holds? ==> r == Returned(d.shelf)
  {
    match d
    case Missing => Returned(DefaultShelf())
    case Holds(sh) => Returned(sh)
    case Damaged => Panicked
  }

  /** `Shelf::write_to_file`: `File::create` truncates the file, so a write
      that fails part way leaves it damaged. */
  function Store(sh: Shelf, writeOk: bool): (r: (Result<(), IoError>, Disk))
    ensures r.0.Ok? <==> writeOk
    ensures writeOk ==> r.1 == Holds(sh)
    ensures !writeOk ==> r.0 == Err(WriteFailed) && r.1 == Damaged
  {
    if writeOk then (Ok(()), Holds(sh)) else (Err(WriteFailed), Damaged)
  }

  /** `lib::entry::add_entry`: the boolean is `Shelf::add_entry`'s answer on
      the loaded shelf, and the shelf written back holds the entry. */
  function LibAddEntry(d: Disk, e: Entry, writeOk: bool): (r: Outcome<(Result<bool, IoError>, Disk)>)
    requires DiskValid(d)
    ensures r.Returned? <==> !d.Damaged?
    ensures r.Returned? ==> DiskValid(r.value.1)
    ensures r.Returned? && writeOk ==>
      && r.value.0 == Ok(e !in Elements(Load(d).value))
      && r.value.1.Holds?
      && Elements(r.value.1.shelf) == Elements(Load(d).value) + {e}
    ensures r.Returned? && !writeOk ==> r.value == (Err(WriteFailed), Damaged)
  {
    match Load(d)
    case Panicked => Panicked
    case Returned(sh) =>
      var (sh', added) := AddEntry(sh, e);
      var (written, d') := Store(sh', writeOk);
      match written
      case Ok(_) => Returned((Ok(added), d'))
      case Err(err) => Returned((Err(err), d'))
  }

  /** `lib::entry::remove_entry`: the boolean is `Shelf::remove_entry`'s
      answer on the loaded shelf, and the shelf written back lacks the entry. */
  function LibRemoveEntry(d: Disk, e: Entry, writeOk: bool): (r: Outcome<(Result<bool, IoError>, Disk)>)
    requires DiskValid(d)
    ensures r.Returned? <==> !d.Damaged?
    ensures r.Returned? ==> DiskValid(r.value.1)
    ensures r.Returned? && writeOk ==>
      && r.value.0 == Ok(e in Elements(Load(d).value))
      && r.value.1.Holds?
      && Elements(r.value.1.shelf) == Elements(Load(d).value) - {e}
    ensures r.Returned? && !writeOk ==> r.value == (Err(WriteFailed), Damaged)
  {
    match Load(d)
    case Panicked => Panicked
    case Returned(sh) =>
      var (sh', removed) := RemoveEntry(sh, e);
      var (written, d') := Store(sh', writeOk);
      match written
      case Ok(_) => Returned((Ok(removed), d'))
      case Err(err) => Returned((Err(err), d'))
  }

  /** `lib::entry::get_all_entries`: the loaded shelf's set of entries. */
  function LibGetAllEntries(d: Disk): (r: Outcome<set<Entry>>)
    requires DiskValid(d)
    ensures r.Returned? <==> !d.Damaged?
    ensures d.Missing? ==> r == Returned({})
    ensures d.Holds? ==> r == Returned(Elements(d.shelf))
  {
    match Load(d)
    case Panicked => Panicked
    case Returned(sh) => Returned(Elements(sh))
  }

  /** The library test `add_and_remove_entry`: starting from a database
      without the entry, adding and then removing it both answer true and
      leave the entries as they were; on a fresh database that is none. */
  lemma AddThenRemoveThroughDisk(d: Disk, e: Entry)
    requires DiskValid(d) && !d.Damaged?
    requires e !in Elements(Load(d).value)
    ensures LibAddEntry(d, e, true).Returned?
    ensures LibAddEntry(d, e, true).value.0 == Ok(true)
    ensures LibRemoveEntry(LibAddEntry(d, e, true).value.1, e, true).Returned?
    ensures LibRemoveEntry(LibAddEntry(d, e, true).value.1, e, true).value.0 == Ok(true)
    ensures LibGetAllEntries(LibRemoveEntry(LibAddEntry(d, e, true).value.1, e, true).value.1)
      == LibGetAllEntries(d)
    ensures d.Missing? ==>
      LibGetAllEntries(LibRemoveEntry(LibAddEntry(d, e, true).value.1, e, true).value.1) == Returned({})
  {
  }

  /** The library test `remove_unexistent_entry`. */
  lemma RemoveAbsentThroughDisk(d: Disk, e: Entry)
    requires DiskValid(d) && !d.Damaged?
    requires e !in Elements(Load(d).value)
    ensures LibRemoveEntry(d, e, true).Returned?
    ensures LibRemoveEntry(d, e, true).value.0 == Ok(false)
    ensures LibGetAllEntries(LibRemoveEntry(d, e, true).value.1) == LibGetAllEntries(d)
  {
  }
}

=== FILE: tag.dfy ===
/** lib/src/tag.rs: a tag is a keyword; equality, hashing and ordering are
    all derived from that single field. */
module Tags {

  datatype Tag = Tag(keyword: string)

  /** The result of Rust's `Ord::cmp`. */
  datatype Ordering = Less | Equal | Greater {
    function Reverse(): Ordering {
      match this
      case Less => Greater
      case Equal => Equal
      case Greater => Less
    }
  }

  /** `Tag::new`: the keyword is stored verbatim. */
  function NewTag(keyword: string): (t: Tag)
    ensures t.keyword == keyword
  {
    Tag(keyword)
  }

  /** The derived `Default` gives the empty keyword. */
  function DefaultTag(): (t: Tag)
    ensures t.keyword == ""
    ensures t == NewTag("")
  {
    Tag("")
  }

  /** `Ord for String`: lexicographic comparison, where a proper prefix comes
      first. Rust compares UTF-8 bytes, which orders exactly like comparing
      code points one by one, as done here on `char`. */
  function CompareKeywords(a: string, b: string): (o: Ordering)
    ensures o == Equal <==> a == b
    decreases |a|
  {
    if |a| == 0 && |b| == 0 then Equal
    else if |a| == 0 then Less
    else if |b| == 0 then Greater
    else if a[0] < b[0] then Less
    else if b[0] < a[0] then Greater
    else
      var o := CompareKeywords(a[1..], b[1..]);
      assert o == Equal ==> a == [a[0]] + a[1..] == [b[0]] + b[1..] == b;
      assert a == b ==> a[1..] == b[1..];
      o
  }

  /** The derived `Ord for Tag` compares the only field, the keyword. */
  function Compare(a: Tag, b: Tag): (o: Ordering)
    ensures o == Equal <==> a == b
  {
    CompareKeywords(a.keyword, b.keyword)
  }

  /** `a <= b` for tags. */
  predicate TagLe(a: Tag, b: Tag) {
    Compare(a, b) != Greater
  }

  /** An independent statement of "a sorts strictly before b": the two
      keywords agree on a common prefix of length k, after which either a
      ends while b goes on, or a's next character is the smaller one. */
  ghost predicate LexLess(a: string, b: string) {
    exists k :: 0 <= k <= |a| && k <= |b| && a[..k] == b[..k] &&
      ((k == |a| && k < |b|) || (k < |a| && k < |b| && a[k] < b[k]))
  }

  lemma {:induction false} CompareLessIsLexLess(a: string, b: string)
    ensures CompareKeywords(a, b) == Less <==> LexLess(a, b)
    decreases |a|
  {
    if |a| == 0 && |b| == 0 {
    } else if |a| == 0 {
      assert a[..0] == b[..0];
    } else if |b| == 0 {
    } else if a[0] < b[0] {
      assert a[..0] == b[..0];
    } else if b[0] < a[0] {
    } else {
      CompareLessIsLexLess(a[1..], b[1..]);
      if LexLess(a, b) {
        var k :| 0 <= k <= |a| && k <= |b| && a[..k] == b[..k] &&
          ((k == |a| && k < |b|) || (k < |a| && k < |b| && a[k] < b[k]));
        if k == 0 {
          assert false;
        }
        assert a[1..][..k-1] == a[..k][1..] == b[..k][1..] == b[1..][..k-1];
        assert LexLess(a[1..], b[1..]);
      }
      if LexLess(a[1..], b[1..]) {
        var k :| 0 <= k <= |a[1..]| && k <= |b[1..]| && a[1..][..k] == b[1..][..k] &&
          ((k == |a[1..]| && k < |b[1..]|) || (k < |a[1..]| && k < |b[1..]| && a[1..][k] < b[1..][k]));
        assert a[..k+1] == [a[0]] + a[1..][..k] == [b[0]] + b[1..][..k] == b[..k+1];
        assert LexLess(a, b);
      }
    }
  }

  lemma {:induction false} CompareKeywordsAntisymmetric(a: string, b: string)
    ensures CompareKeywords(b, a) == CompareKeywords(a, b).Reverse()
    decreases |a|
  {
    if |a| != 0 && |b| != 0 && a[0] == b[0] {
      CompareKeywordsAntisymmetric(a[1..], b[1..]);
    }
  }

  lemma {:induction false} CompareKeywordsTransitive(a: string, b: string, c: string)
    requires CompareKeywords(a, b) != Greater && CompareKeywords(b, c) != Greater
    ensures CompareKeywords(a, c) != Greater
    decreases |a|
  {
    if |a| != 0 && |b| != 0 && |c| != 0 && a[0] == b[0] == c[0] {
      CompareKeywordsTransitive(a[1..], b[1..], c[1..]);
    }
  }

  /** The derived tag ordering is a total order that agrees with equality. */
  lemma TagOrderIsTotal(a: Tag, b: Tag, c: Tag)
    ensures TagLe(a, a)
    ensures TagLe(a, b) && TagLe(b, a) <==> a == b
    ensures TagLe(a, b) || TagLe(b, a)
    ensures TagLe(a, b) && TagLe(b, c) ==> TagLe(a, c)
    ensures Compare(b, a) == Compare(a, b).Reverse()
  {
    CompareKeywordsAntisymmetric(a.keyword, b.keyword);
    if TagLe(a, b) && TagLe(b, c) {
      CompareKeywordsTransitive(a.keyword, b.keyword, c.keyword);
    }
  }

  /** Tags compare exactly as their keywords do, lexicographically. */
  lemma TagOrderIsLexicographic(a: Tag, b: Tag)
    ensures Compare(a, b) == Less <==> LexLess(a.keyword, b.keyword)
    ensures Compare(a, b) == Equal <==> a.keyword == b.keyword
  {
    CompareLessIsLexLess(a.keyword, b.keyword);
  }
}

=== FILE: tui.dfy ===
/** app/src/tui/state.rs (`State`) and app/src/tui/mod.rs (event and key
    dispatch, and the index logic of opening and removing the selected
    entry). The terminal, drawing and the event channel are not modelled:
    an event arrives as a parameter, a closed channel as `None`. */
module Tui {
  import opened Common
  import opened Entries
  import opened Shelves
  import opened Paths
  import opened Format
  import opened Apps
  import opened ListState

  /** crossterm's `KeyCode`. */
  datatype KeyCode =
    | Backspace | Enter | Left | Right | Up | Down | Home | End
    | PageUp | PageDown | Tab | BackTab | Delete | Insert
    | F(number: nat) | Char(c: char) | Null | Esc

  datatype Event = Tick | Input(key: KeyCode)

  datatype State = State(
    title: string,
    shouldExit: bool,
    shouldRedraw: bool,
    entries: StatefulList<string>,
    editingPrompt: bool,
    prompt: string)

  /** The TUI's view of the application together with its own state. */
  datatype Tui = Tui(app: App, state: State)

  /** `State::default`. */
  function DefaultState(): (s: State)
    ensures s.title == "Bookshelf"
    ensures !s.shouldExit && !s.shouldRedraw && !s.editingPrompt
    ensures s.prompt == ""
    ensures s.entries.selected.None? && |s.entries.items| == 0
  {
    State("Bookshelf", false, false, EmptyList(), false, "")
  }

  // ---------------------------------------------------------------------
  // The list of labels shown for the shelf

  /** Every entry has a file name, so the `unwrap` on it cannot panic. */
  predicate AllNamed(sh: Shelf) {
    forall i :: 0 <= i < |sh.entries| ==> FileName(sh.entries[i].path).Some?
  }

  /** The file name of each listed entry, in shelf order. */
  function EntryLabels(sh: Shelf): (labels: seq<string>)
    requires AllNamed(sh)
    ensures |labels| == Size(sh)
    ensures forall i :: 0 <= i < |labels| ==> Some(labels[i]) == FileName(sh.entries[i].path)
  {
    seq(|sh.entries|, i requires 0 <= i < |sh.entries| => FileName(sh.entries[i].path).value)
  }

  /** What the dispatch keeps true between events: the displayed labels are
      those of the shelf, and the selection points at one of them. */
  predicate Consistent(t: Tui) {
    && AppValid(t.app)
    && AllNamed(t.app.shelf)
    && t.state.entries.items == EntryLabels(t.app.shelf)
    && SelectionValid(t.state.entries)
  }

  /** `Tui::new`: the default state showing the shelf's labels. */
  function NewTui(app: App): (r: Outcome<Tui>)
    requires AppValid(app)
    ensures r.Returned? <==> AllNamed(app.shelf)
    ensures r.Returned? ==> Consistent(r.value) && r.value.app == app
    ensures r.Returned? ==> r.value.state == DefaultState().(entries := r.value.state.entries)
    ensures r.Returned? ==> r.value.state.entries.selected.None?
  {
    if AllNamed(app.shelf) then
      Returned(Tui(app, DefaultState().(entries := StatefulList(None, EntryLabels(app.shelf)))))
    else
      Panicked
  }

  /** `get_entry_list`: refreshes the labels from the shelf and deselects
      when the list became empty; the selection is otherwise kept. */
  function GetEntryList(t: Tui): (r: Outcome<Tui>)
    ensures r.Returned? <==> AllNamed(t.app.shelf)
    ensures r.Returned? ==>
      && r.value.app == t.app
      && r.value.state.entries.items == EntryLabels(t.app.shelf)
      && r.value.state == t.state.(entries := r.value.state.entries)
      && (Size(t.app.shelf) == 0 ==> r.value.state.entries.selected.None?)
      && (Size(t.app.shelf) > 0 ==> r.value.state.entries.selected == t.state.entries.selected)
  {
    if AllNamed(t.app.shelf) then
      var refreshed := t.state.entries.(items := EntryLabels(t.app.shelf));
      var l := if |refreshed.items| == 0 then Deselect(refreshed) else refreshed;
      Returned(t.(state := t.state.(entries := l)))
    else
      Panicked
  }

  /** `open_entry`: with position i selected, looks up 1-based entry i + 1
      and reports it in the prompt; opening it in a viewer is an external
      effect left out here. The `unwrap` on the lookup panics when the
      selection points past the shelf. */
  function OpenEntry(t: Tui): (r: Outcome<Tui>)
    ensures t.state.entries.selected.None? ==> r == Returned(t)
    ensures r.Returned? ==> r.value.app == t.app && r.value.state.entries == t.state.entries
    ensures t.state.entries.selected.Some? && r.Returned? ==>
      var i := t.state.entries.selected.value;
      && GetIndex(t.app.shelf, i + 1).Ok?
      && FileName(GetIndex(t.app.shelf, i + 1).value.path).Some?
      && r.value.state == t.state.(prompt := "Opened '" + FormatEntry(i + 1, GetIndex(t.app.shelf, i + 1).value) + "'")
  {
    match t.state.entries.selected
    case None => Returned(t)
    case Some(i) =>
      match GetIndex(t.app.shelf, i + 1)
      case Err(_) => Panicked
      case Ok(e) =>
        if FileName(e.path).None? then Panicked
        else Returned(t.(state := t.state.(prompt := "Opened '" + FormatEntry(i + 1, e) + "'")))
  }

  /** On a consistent TUI the selected entry exists and has a file name, so
      opening never panics. */
  lemma OpenEntryNeverPanics(t: Tui)
    requires Consistent(t)
    ensures OpenEntry(t).Returned?
  {
    if t.state.entries.selected.Some? {
      var i := t.state.entries.selected.value;
      assert FileName(t.app.shelf.entries[i].path).Some?;
    }
  }

  /** `remove_entry`: with position i selected, removes 1-based entry i + 1
      (the `unwrap` panics when that fails or the save fails), refreshes the
      list, and moves the selection to the new last item when the removed
      one was the last. */
  function RemoveEntry(t: Tui, saveOk: bool): (r: Outcome<Tui>)
    requires AppValid(t.app)
    ensures t.state.entries.selected.None? ==> r == Returned(t)
    ensures r.Returned? ==> AppValid(r.value.app)
    ensures r.Returned? ==> r.value.state == t.state.(entries := r.value.state.entries)
    ensures t.state.entries.selected.Some? && r.Returned? ==>
      var i := t.state.entries.selected.value;
      && 1 <= i + 1 <= Size(t.app.shelf)
      && r.value.app == RemoveEntryIndex(t.app, i + 1, saveOk).0
  {
    match t.state.entries.selected
    case None => Returned(t)
    case Some(i) =>
      var (app', result) := RemoveEntryIndex(t.app, i + 1, saveOk);
      if result.Err? then Panicked
      else
        match GetEntryList(t.(app := app'))
        case Panicked => Panicked
        case Returned(t') =>
          if i == |t'.state.entries.items| then
            Returned(t'.(state := t'.state.(entries := Last(t'.state.entries))))
          else
            Returned(t')
  }

  /** After removing the selected entry: an emptied list has no selection;
      if the removed entry was the last, the new last is selected; otherwise
      the selection stays at the same position, now the entry that followed. */
  lemma RemoveEntryFixesSelection(t: Tui)
    requires Consistent(t) && t.state.entries.selected.Some?
    ensures RemoveEntry(t, true).Returned?
    ensures
      var i := t.state.entries.selected.value;
      var t' := RemoveEntry(t, true).value;
      var n := Size(t'.app.shelf);
      && t'.app.shelf == RemoveIndex(t.app.shelf, i + 1).value
      && t'.app.saved == t'.app.shelf
      && n == Size(t.app.shelf) - 1
      && (n == 0 ==> t'.state.entries.selected.None?)
      && (n > 0 && i == n ==> t'.state.entries.selected == Some(n - 1))
      && (i < n ==> t'.state.entries.selected == Some(i))
      && Consistent(t')
  {
  }

  /** Removing with a failing save panics (the `unwrap` on the result). */
  lemma RemoveEntryPanicsOnSaveFailure(t: Tui)
    requires Consistent(t) && t.state.entries.selected.Some?
    ensures RemoveEntry(t, false).Panicked?
  {
  }

  // ---------------------------------------------------------------------
  // Key and event dispatch

  /** `match_inputs`. In prompt mode, characters edit the prompt; in
      navigation mode, keys move the selection, open, remove, start the
      prompt or ask to exit. A key neither mode knows only clears the
      redraw request. Enter in prompt mode is `todo!()` and panics. */
  function MatchInputs(t: Tui, key: KeyCode, saveOk: bool): (r: Outcome<Tui>)
    requires AppValid(t.app)
    ensures r.Returned? ==> AppValid(r.value.app) && r.value.state.title == t.state.title
    ensures t.state.editingPrompt ==> (r.Panicked? <==> key == Enter)
    ensures t.state.editingPrompt && r.Returned? ==>
      r.value.app == t.app && r.value.state.entries == t.state.entries
    ensures r.Returned? && !(key == Delete || key == Char('d')) ==> r.value.app == t.app
    ensures r.Returned? && !t.state.editingPrompt && NavigationKey(key) ==>
      r.value.state.shouldRedraw == t.state.shouldRedraw
  {
    var s := t.state;
    if s.editingPrompt then
      match key
      case Char(c) => Returned(t.(state := s.(prompt := s.prompt + [c])))
      case Backspace =>
        Returned(if |s.prompt| == 0 then t else t.(state := s.(prompt := s.prompt[..|s.prompt| - 1])))
      case Esc => Returned(t.(state := s.(editingPrompt := false)))
      case Enter => Panicked
      case _ => Returned(t.(state := s.(shouldRedraw := false)))
    else
      if key == Up || key == Char('k') then
        if CanStep(s.entries) then Returned(t.(state := s.(entries := Previous(s.entries)))) else Panicked
      else if key == Down || key == Char('j') then
        if CanStep(s.entries) then Returned(t.(state := s.(entries := Next(s.entries)))) else Panicked
      else if key == Enter || key == Right || key == Char('l') then
        OpenEntry(t)
      else if key == Home || key == Char('K') then
        Returned(t.(state := s.(entries := First(s.entries))))
      else if key == End || key == Char('J') then
        Returned(t.(state := s.(entries := Last(s.entries))))
      else if key == Delete || key == Char('d') then
        RemoveEntry(t, saveOk)
      else if key == Char('a') then
        Returned(t.(state := s.(editingPrompt := true, prompt := "")))
      else if key == Esc || key == Char('q') then
        Returned(t.(state := s.(shouldExit := true)))
      else
        Returned(t.(state := s.(shouldRedraw := false)))
  }

  /** Keys with a meaning in navigation mode. */
  predicate NavigationKey(key: KeyCode) {
    key in {Up, Down, Enter, Right, Home, End, Delete, Esc} ||
    (key.Char? && key.c in "kjlKJdaq")
  }

  /** Prompt mode: a character is appended, Backspace drops the last one
      (nothing when the prompt is empty), Esc leaves prompt mode, and any
      other key except Enter only clears the redraw request. */
  lemma PromptModeKeys(t: Tui, key: KeyCode, saveOk: bool)
    requires AppValid(t.app) && t.state.editingPrompt && key != Enter
    ensures MatchInputs(t, key, saveOk).Returned?
    ensures
      var s := t.state;
      var s' := MatchInputs(t, key, saveOk).value.state;
      && (key.Char? ==> s' == s.(prompt := s.prompt + [key.c]) && s'.prompt[..|s.prompt|] == s.prompt)
      && (key == Backspace && |s.prompt| > 0 ==> s' == s.(prompt := s.prompt[..|s.prompt| - 1]) && |s'.prompt| == |s.prompt| - 1)
      && (key == Backspace && |s.prompt| == 0 ==> s' == s)
      && (key == Esc ==> s' == s.(editingPrompt := false))
      && (!key.Char? && key != Backspace && key != Esc ==> s' == s.(shouldRedraw := false))
  {
  }

  /** Typing a character and then Backspace restores the prompt. */
  lemma TypeThenBackspace(t: Tui, c: char, saveOk: bool)
    requires AppValid(t.app) && t.state.editingPrompt
    ensures MatchInputs(MatchInputs(t, Char(c), saveOk).value, Backspace, saveOk) == Returned(t)
  {
    var t' := MatchInputs(t, Char(c), saveOk).value;
    assert t'.state.prompt[..|t'.state.prompt| - 1] == t.state.prompt;
  }

  /** Navigation mode moves: Up/'k' is `previous`, Down/'j' is `next`,
      Home/'K' is `first`, End/'J' is `last`; nothing else changes.
      Enter/Right/'l' open the selected entry and Delete/'d' remove it. */
  lemma NavigationMoves(t: Tui, key: KeyCode, saveOk: bool)
    requires AppValid(t.app) && !t.state.editingPrompt && SelectionValid(t.state.entries)
    ensures
      var r := MatchInputs(t, key, saveOk);
      var s := t.state;
      && ((key == Up || key == Char('k')) ==> r == Returned(t.(state := s.(entries := Previous(s.entries)))))
      && ((key == Down || key == Char('j')) ==> r == Returned(t.(state := s.(entries := Next(s.entries)))))
      && ((key == Home || key == Char('K')) ==> r == Returned(t.(state := s.(entries := First(s.entries)))))
      && ((key == End || key == Char('J')) ==> r == Returned(t.(state := s.(entries := Last(s.entries)))))
      && ((key == Enter || key == Right || key == Char('l')) ==> r == OpenEntry(t))
      && ((key == Delete || key == Char('d')) ==> r == RemoveEntry(t, saveOk))
  {
  }

  /** Navigation mode: 'a' opens an empty prompt, Esc/'q' ask to exit, and
      any unrecognised key clears the redraw request and nothing else. */
  lemma NavigationModeOtherKeys(t: Tui, key: KeyCode, saveOk: bool)
    requires AppValid(t.app) && !t.state.editingPrompt
    ensures
      var r := MatchInputs(t, key, saveOk);
      var s := t.state;
      && (key == Char('a') ==> r == Returned(t.(state := s.(editingPrompt := true, prompt := ""))))
      && ((key == Esc || key == Char('q')) ==> r == Returned(t.(state := s.(shouldExit := true))))
      && (!NavigationKey(key) ==> r == Returned(t.(state := s.(shouldRedraw := false))))
  {
  }

  /** On a consistent TUI, in either mode, every key except Enter in prompt
      mode returns when saves succeed, and the result is consistent again:
      the labels still mirror the shelf and the selection still points at
      one of them. */
  lemma MatchInputsPreservesConsistency(t: Tui, key: KeyCode)
    requires Consistent(t)
    requires !(t.state.editingPrompt && key == Enter)
    ensures MatchInputs(t, key, true).Returned?
    ensures Consistent(MatchInputs(t, key, true).value)
  {
    var s := t.state;
    var r := MatchInputs(t, key, true);
    if s.editingPrompt {
      PromptModeKeys(t, key, true);
    } else if key == Up || key == Char('k') || key == Down || key == Char('j') {
      NavigationMoves(t, key, true);
      MovesPreserveValidity(s.entries);
    } else if key == Enter || key == Right || key == Char('l') {
      assert r == OpenEntry(t);
      OpenEntryNeverPanics(t);
    } else if key == Home || key == Char('K') || key == End || key == Char('J') {
      NavigationMoves(t, key, true);
    } else if key == Delete || key == Char('d') {
      assert r == RemoveEntry(t, true);
      if s.entries.selected.Some? {
        RemoveEntryFixesSelection(t);
      }
    } else {
      NavigationModeOtherKeys(t, key, true);
    }
  }

  /** `match_events`: every event first asks for a redraw; a tick withdraws
      the request; a key goes to `match_inputs`; a closed channel asks to
      exit. */
  function MatchEvents(t: Tui, event: Option<Event>, saveOk: bool): (r: Outcome<Tui>)
    requires AppValid(t.app)
    ensures event == Some(Tick) ==> r == Returned(t.(state := t.state.(shouldRedraw := false)))
    ensures event == None ==> r == Returned(t.(state := t.state.(shouldRedraw := true, shouldExit := true)))
    ensures event.Some? && event.value.Input? ==>
      r == MatchInputs(t.(state := t.state.(shouldRedraw := true)), event.value.key, saveOk)
  {
    var t1 := t.(state := t.state.(shouldRedraw := true));
    match event
    case Some(Tick) => Returned(t1.(state := t1.state.(shouldRedraw := false)))
    case Some(Input(key)) => MatchInputs(t1, key, saveOk)
    case None => Returned(t1.(state := t1.state.(shouldExit := true)))
  }

  /** A key navigation mode knows leaves the redraw request set, and the
      TUI consistent. */
  lemma KeyEventsRequestRedraw(t: Tui, key: KeyCode)
    requires Consistent(t) && !t.state.editingPrompt && NavigationKey(key)
    ensures MatchEvents(t, Some(Input(key)), true).Returned?
    ensures MatchEvents(t, Some(Input(key)), true).value.state.shouldRedraw
    ensures Consistent(MatchEvents(t, Some(Input(key)), true).value)
  {
    var t1 := t.(state := t.state.(shouldRedraw := true));
    assert MatchEvents(t, Some(Input(key)), true) == MatchInputs(t1, key, true);
    assert Consistent(t1);
    MatchInputsPreservesConsistency(t1, key);
  }
}
